=== FILE: README.md ===
# GitHub Action/dispatcher client, modelled in Dafny

This project models the "Action" pattern of the draft `_drafts/connectpattern.kt`, a GitHub REST client built on http4k.

An **action** is an immutable value. It knows two things:

- which request to make (`toRequest`);
- how to read the response (`fromResponse`).

The two actions are `GetUser(username)` and `GetRepoLatestCommit(owner, repo)`.

A **`GitHubApi`** has one operation, `invoke(action)`. Two implementations are modelled:

- the `Http` adapter, which sends the action's request through a transport (an http4k `HttpHandler`) and decodes the reply with the action's own decoder;
- `RecordingGitHubApi`, a decorator that logs every action and then delegates.

The extension functions `getUser` and `getLatestRepoCommit` are not implementations; they are sugar over `invoke`, available on any `GitHubApi`.

The model also covers:

- the result4k flavour of `GetUser`, whose decoder returns `Success` or `Failure` instead of a bare value;
- the pre-refactoring `before.GitHubApi`, which issues the same requests by hand. The refactoring is proved to change nothing.

Modules, leaves first:

- `Kotlin` (`kotlin.dfy`): nullable values, exceptions as an `Outcome` (returned or raised), and the `String`/`Int` operations used below.
- `Uris` (`uris.dfy`): http4k's `Uri.of` parsing, `Uri.query`, and `Uri.extend`.
- `Http4k` (`http.dfy`): requests, statuses, responses, and the `SetBaseUriFrom` and `SetHeader` filters.
- `Actions` (`actions.dfy`): the actions, their requests and their decoders.
- `Before` (`before.dfy`): the old hand-written client.
- `GitHubApi` (`api.dfy`): the dispatcher, the `Http` adapter, the helpers, and the refinement lemmas.
- `Recording` (`recording.dfy`): the recording decorator.
- `Result4k` (`result4k.dfy`): the Result-flavoured `GetUser`.

Kotlin's generic `invoke<R>(GitHubApiAction<R>): R` becomes a function from actions to a tagged `Answer`. `Fits(a, v)` says that the answer has the action's result type. `WellTyped` says that a dispatcher respects that typing.

A transport is a function from requests to `Outcome<Response>`. Exceptions are values: `Raised(e)` is what the caller would see thrown.

The request target is parsed the way http4k parses it (`Uri.of`, following appendix B of RFC 3986). So a username containing `?` or `#` does not end up whole in the path. The request-shape lemmas state this as an if-and-only-if.

## Model

| member | source | states |
|---|---|---|
| Actions.ToRequest | _drafts/connectpattern.kt:77-87 | Every action asks for a GET with no headers and no body, to a rooted path with no scheme or host of its own. |
| Actions.GetUserRequest | _drafts/connectpattern.kt:78 | `GetUser(u)` requests the path "/users/" followed by u up to its first '?' or '#'. So the path is "/users/" + u exactly when u contains no '?' or '#', and then there is no query and no fragment. |
| Actions.GetRepoLatestCommitRequest | _drafts/connectpattern.kt:85 | `GetRepoLatestCommit(o, r)` requests "/repos/" followed by "o/r/commits" up to its first '?' or '#'. The path is "/repos/o/r/commits" exactly when neither name contains '?' or '#', and then the query is exactly `per_page=1`. |
| Actions.FromResponse | _drafts/connectpattern.kt:79-86 | Decoding gives a value of the action's own result type, and that value carries the response body unchanged. |
| Actions.FromResponseReadsOnlyBody | _drafts/connectpattern.kt:79-86 | The plain decoders never look at the status: two responses decode alike if and only if their bodies are equal. |
| Uris.Of | _drafts/connectpattern.kt:78 | Parsing the target of `Request(GET, target)` gives a path with no '?' or '#'. A rooted target that does not start with "//" has no scheme or authority. Its path is the target up to the first '?' or '#': a prefix with neither character, followed in the target by one of them or by nothing. It is the whole target exactly when the target has no '?' or '#'. |
| Uris.OfQuery | _drafts/connectpattern.kt:78 | When the path of a rooted target that does not start with "//" ends at a '?', the query is parsed from the text between that '?' and the next '#', and the fragment is the text after that '#' (empty if there is none). |
| Uris.OfFragment | _drafts/connectpattern.kt:78 | When the path of such a target ends at a '#', there is no query, and the fragment is everything after that '#'. |
| Uris.Extend | _drafts/connectpattern.kt:93 | Laying a request URI over the base keeps the base's scheme, authority and fragment. The base's query comes first, then the request's. Over an empty base path, a rooted request path is kept. |
| Http4k.NewRequest | _drafts/connectpattern.kt:78 | `Request(GET, target)` has that method, no headers and an empty body. A rooted target without '?', '#' or a leading "//" becomes exactly the path, with no scheme, authority, query or fragment. |
| Http4k.Query | _drafts/connectpattern.kt:85 | `.query(name, value)` adds `name=value` after the existing parameters, which are kept in order. Nothing else about the request changes. |
| Http4k.Successful | _drafts/connectpattern.kt:138 | A status is successful exactly when its code is in the 2xx class. |
| Http4k.StatusText | _drafts/connectpattern.kt:139 | A status renders as its code in decimal, one space, then its reason phrase. |
| Http4k.SetBaseUriFrom | _drafts/connectpattern.kt:93 | The request's URI is laid over the base, and its `Host` header is replaced by one naming the base's authority. Method, body and all other headers are kept. |
| Http4k.SetHeader | _drafts/connectpattern.kt:130 | After the filter the request carries all its old headers in order, then `name: value`. Method, URI and body are unchanged. |
| Http4k.StatusTextInjective | _drafts/connectpattern.kt:139 | The rendering "code description" of a status identifies the status: two statuses render alike if and only if they have the same code and the same reason phrase. |
| GitHubApi.BaseUriParts | _drafts/connectpattern.kt:93 | `Uri.of("https://api.github.com")` has scheme "https", authority "api.github.com", and an empty path, query and fragment. |
| GitHubApi.Decorate | _drafts/connectpattern.kt:93-94 | The adapter's filters address the request to https://api.github.com, with `Host: api.github.com` and `Accept: application/vnd.github.v3+json`. They keep the method, body and query, and keep any rooted path. |
| GitHubApi.DecorateKeepsAction | _drafts/connectpattern.kt:93-97 | For every action, the request the client receives has the action's own method, path and query, on GitHub's host, with exactly two headers, `Host: api.github.com` then `Accept: application/vnd.github.v3+json`. |
| GitHubApi.Http | _drafts/connectpattern.kt:92-97 | `Http(client).invoke(a)` is the client's reply to the decorated `a.toRequest()`, decoded by `a.fromResponse`; an exception from the client propagates. Every answer has the result type of its action, as `invoke`'s signature at line 71 demands. |
| GitHubApi.Invoke | _drafts/connectpattern.kt:97 | Run against a transport that logs its uses, `invoke(a)` uses it exactly once, with the decorated `a.toRequest()`, and returns what `Http` returns. |
| GitHubApi.InvokeOnce | _drafts/connectpattern.kt:97 | Through a fresh logged transport, the client sees exactly one request, the decorated `a.toRequest()`. A returned response comes back decoded by `a`; a raised exception comes back unchanged. |
| GitHubApi.FixedResponse | _drafts/connectpattern.kt:97 | If the client answers every request with the same response, `invoke(a)` returns exactly `a.fromResponse` of that response. |
| GitHubApi.ClientFailurePropagates | _drafts/connectpattern.kt:97 | If the client raises, `invoke` raises the same exception. |
| GitHubApi.GetUser | _drafts/connectpattern.kt:103 | `getUser(u)` returns, or raises, exactly what `invoke(GetUser(u))` does. |
| GitHubApi.GetLatestRepoCommit | _drafts/connectpattern.kt:104 | `getLatestRepoCommit(o, r)` returns, or raises, exactly what `invoke(GetRepoLatestCommit(o, r))` does. |
| GitHubApi.AnsweringEveryGetUser | _drafts/connectpattern.kt:113-120 | A dispatcher that answers every `GetUser` with the same details makes `getUser` return those details for any username. |
| GitHubApi.GetUserRefinesBefore | _drafts/connectpattern.kt:42-47 | For the same client, the old `getUser` and `getUser` through the `Http` adapter give the same outcome. |
| GitHubApi.GetLatestRepoCommitRefinesBefore | _drafts/connectpattern.kt:49-53 | For the same client, the old `getRepoLatestCommit` and `getLatestRepoCommit` through the adapter give the same outcome. |
| Before.Stack | _drafts/connectpattern.kt:43-45 | The old client's filter stack, written out with its own literals. It is the reference definition the refinement lemmas compare against; it has no contract of its own. |
| Before.GetUser | _drafts/connectpattern.kt:47 | The old `getUser`, the reference definition for `GitHubApi.GetUserRefinesBefore`; it has no contract of its own. |
| Before.GetRepoLatestCommit | _drafts/connectpattern.kt:49-53 | The old `getRepoLatestCommit`, the reference definition for `GitHubApi.GetLatestRepoCommitRefinesBefore`; it has no contract of its own. |
| Recording.RecordingGitHubApi.Invoke | _drafts/connectpattern.kt:124-127 | One call appends the action to `recorded` before delegating, so the action is logged even if the delegate raises. The call returns the delegate's result for the unchanged action. |
| Recording.RecordingGitHubApi.GetUser | _drafts/connectpattern.kt:103 | `getUser(u)` on a recorder logs `GetUser(u)` and returns, or raises, exactly what the delegate does for it. |
| Recording.RecordingGitHubApi.GetLatestRepoCommit | _drafts/connectpattern.kt:104 | `getLatestRepoCommit(o, r)` on a recorder logs `GetRepoLatestCommit(o, r)` and returns, or raises, exactly what the delegate does for it. |
| Recording.Session | _drafts/connectpattern.kt:122-128 | Given actions a1..an, one call each, the recorder's log is exactly [a1..an]: in call order, with duplicates, and including calls whose delegate raised. Every call returns the delegate's own result for that action. |
| Result4k.ToRequest | _drafts/connectpattern.kt:136 | The result4k `GetUser` makes the same request as the plain `GetUser`. |
| Result4k.FromResponse | _drafts/connectpattern.kt:137-140 | The result is a success exactly when the status is 2xx, and the success carries the body as the user's details. Otherwise the result is a failure with `RuntimeException("API returned: " + status)`. |
| Result4k.AgreesWithPlainGetUser | _drafts/connectpattern.kt:137-140 | On a 2xx response both flavours decode the same details. On any other status the two disagree: the plain flavour still returns the body. |
| Result4k.FailureNamesStatus | _drafts/connectpattern.kt:139 | Two failures carry exceptions with the same message exactly when their statuses have the same code and the same reason phrase. |

## Left out

- The server in `before` (`BearerAuth`, `routes`, `echo`, `health`, the Netty listener, lines 27-40) is left out. It is server I/O, not part of the client.
- The OkHttp client (lines 56 and 100) and `before.user` (line 58) are left out. The transport is a function parameter, because the real one is network I/O.
- Http4k.SetHeader: the source's `SetHeader` is `TODO()` at line 130, so as written, building either filter stack would throw `NotImplementedError`. The model gives the filter its evident meaning: the header is appended with that value. Whether an existing header of the same name should be replaced is not decided by the code, and the model does not replace it.
- The `mockk` mock in the test (lines 115-117) is not modelled. It is a foreign library; only its consequence is kept, as `GitHubApi.AnsweringEveryGetUser`.
- The commented-out `getLatestUser` (lines 106-111) is not modelled, because it is not code.
- There is no stubbing decorator in the code, so none is modelled.
- There is no Result-flavoured dispatcher in the code, so none is modelled. The result4k `GetUser` implements `result4k.GitHubApiAction`, an `Action<Result<…>>`, not the top-level `GitHubApiAction` that `GitHubApi.invoke` accepts, so no `GitHubApi` can invoke it. Only its request and its decoder are modelled.
- The only header the code sets itself is `Accept`; there is no authorization header.
- Response and request bodies are opaque strings. JSON content and `bodyString()`'s UTF-8 decoding are not modelled.
- GitHubApi.Invoke: http4k form-decodes every query parameter, and a malformed '%' escape makes it raise `IllegalArgumentException`. So for a name with '?' followed by a malformed escape, such as `GetUser("a?%")`, http4k raises before the client is called: in `SetBaseUriFrom`'s `extend` for `GetUser`, and already in `.query("per_page", "1")` for `GetRepoLatestCommit`. The model does not decode, so it never raises there and makes the one client call.
- Uris.Of: a fragment containing a line break is accepted. http4k rejects it, because Java's `.` does not match line terminators. The authority is kept whole, not split into user info, host and port. Percent-decoding of query parameters is not modelled.
- Uris.Extend: it follows http4k's `Uri.extend` and `appendToPath`, which are http4k library code, not in connectpattern.kt.
- Http4k.SetBaseUriFrom: it follows http4k's `SetBaseUriFrom` and `SetHostFrom` filters, which are http4k library code, not in connectpattern.kt. `SetHostFrom` also copies the base's scheme, host and port into the URI; the extension that follows overrides them with the same values, so the model does only the extension. The `Host` value is the whole authority, so a base with user info would put it in the header; the base used here has none.
- Http4k.StatusTextInjective: it assumes http4k renders a status as "code description", and Kotlin renders an `Int` in decimal. Status codes are unbounded integers rather than 32-bit.
- Thread safety of the `recorded` list is not modelled, because concurrency is out of scope. The recorder is a class whose `Invoke` states its effect on `recorded`.
- Recording.RecordingGitHubApi.Invoke: the recorder is a class with state, not a `Dispatcher` value, so it cannot be passed where a `GitHubApi` is expected. One recorder wrapping another, or a recorder handed to `GitHubApi.GetUser`, is not modelled. The extension functions on a recorder are modelled as its methods `GetUser` and `GetLatestRepoCommit` instead.
- `_code/powerfeature.kt`, `_drafts/companion_objects.kt` and `_drafts/something.kt` are not part of this model. They hold `java.time` parsing, clock reads and filesystem listing.

=== FILE: actions.dfy ===
/** The GitHub actions: immutable values that know which request to make
    (`toRequest`) and how to read the reply (`fromResponse`). In Kotlin each
    is a data class implementing `GitHubApiAction<R>`; here the two classes
    are the two variants of one datatype, and the result type `R` becomes
    the variant of `Answer` that `Fits` the action. */
module Actions {
  import opened Kotlin
  import opened Uris
  import opened Http4k

  /** The address every GitHub request is sent to, and the media type asked
      for by the adapter. */
  const ApiBase := "https://api.github.com"
  const V3Json := "application/vnd.github.v3+json"

  /** The decoded replies: the raw JSON text, not interpreted further. */
  datatype UserDetails = UserDetails(userJson: string)
  datatype Commit = Commit(commitJson: string)

  datatype GitHubAction =
    | GetUser(username: string)
    | GetRepoLatestCommit(owner: string, repo: string)

  /** What `invoke` returns for some action: a `UserDetails` or a `Commit`. */
  datatype Answer =
    | User(details: UserDetails)
    | LatestCommit(commit: Commit)

  /** The answer has the result type `R` of the action's `GitHubApiAction<R>`. */
  predicate Fits(a: GitHubAction, v: Answer) {
    a.GetUser? <==> v.User?
  }

  /** The JSON text an answer carries. */
  function Json(v: Answer): string {
    match v
    case User(d) => d.userJson
    case LatestCommit(c) => c.commitJson
  }

  /** The request target of `GetUser`. */
  function UserTarget(username: string): string {
    "/users/" + username
  }

  /** The request target of `GetRepoLatestCommit`,
      "/repos/$owner/$repo/commits". */
  function CommitsTarget(owner: string, repo: string): string {
    "/repos/" + (owner + "/" + repo + "/commits")
  }

  /** `toRequest()`: a GET without headers or body to a rooted path on no
      particular host; the shapes of the two requests are stated by
      `GetUserRequest` and `GetRepoLatestCommitRequest`. */
  function ToRequest(a: GitHubAction): (r: Request)
    ensures r.verb == GET && r.headers == [] && r.body == ""
    ensures r.uri.scheme == "" && r.uri.authority == ""
    ensures StartsWith(r.uri.path, "/")
  {
    match a
    case GetUser(username) =>
      RootedTarget("/users/", username);
      NewRequest(GET, UserTarget(username))
    case GetRepoLatestCommit(owner, repo) =>
      var text := owner + "/" + repo + "/commits";
      RootedTarget("/repos/", text);
      Query(NewRequest(GET, CommitsTarget(owner, repo)), "per_page", "1")
  }

  /** `GetUser(username).toRequest()` asks for "/users/" + username with no
      query. `Uri.of` takes a '?' or '#' as the start of a query or a
      fragment, so the path is "/users/" followed by the username up to its
      first '?' or '#', and is the interpolated target exactly when the
      username has neither. */
  lemma GetUserRequest(username: string)
    ensures var r := ToRequest(GetUser(username));
      && r.verb == GET
      && r.uri.path == "/users/" + username[..IndexOfAny(username, {'?', '#'})]
      && (r.uri.path == UserTarget(username) <==> Plain(username))
      && (Plain(username) ==> r.uri.query == [] && r.uri.fragment == "")
  {
    RootedTarget("/users/", username);
    RootedTargetPath("/users/", username);
  }

  /** `GetRepoLatestCommit(owner, repo).toRequest()` asks for
      "/repos/" + owner + "/" + repo + "/commits" with the single query
      parameter `per_page=1`; as for `GetUser`, the path stops at the first
      '?' or '#', and is the interpolated target exactly when neither name
      has one. */
  lemma GetRepoLatestCommitRequest(owner: string, repo: string)
    ensures var r := ToRequest(GetRepoLatestCommit(owner, repo));
      && r.verb == GET
      && (var text := owner + "/" + repo + "/commits";
          r.uri.path == "/repos/" + text[..IndexOfAny(text, {'?', '#'})])
      && (r.uri.path == CommitsTarget(owner, repo) <==> Plain(owner) && Plain(repo))
      && (Plain(owner) && Plain(repo) ==>
            r.uri.query == [Param("per_page", Some("1"))] && r.uri.fragment == "")
  {
    var text := owner + "/" + repo + "/commits";
    RootedTarget("/repos/", text);
    RootedTargetPath("/repos/", text);
    CommitsTextPlain(owner, repo);
    var u := Of(CommitsTarget(owner, repo));
    if Plain(text) {
      OnlyPerPage(u);
    }
  }

  lemma CommitsTextPlain(owner: string, repo: string)
    ensures Plain(owner + "/" + repo + "/commits") <==> Plain(owner) && Plain(repo)
  {
  }

  lemma OnlyPerPage(u: Uri)
    requires u.query == []
    ensures WithQuery(u, "per_page", "1").query == [Param("per_page", Some("1"))]
  {
  }

  lemma PlainConcat(s: string, t: string)
    ensures Plain(s + t) <==> Plain(s) && Plain(t)
  {
  }

  /** A target made of a fixed rooted prefix and interpolated text parses to
      a rooted path that keeps the prefix, and is the whole target exactly
      when the interpolated text has no '?' or '#'. */
  lemma RootedTarget(prefix: string, text: string)
    requires |prefix| >= 2 && prefix[0] == '/' && prefix[1] != '/' && Plain(prefix)
    ensures var u := Of(prefix + text);
      && u.scheme == "" && u.authority == ""
      && StartsWith(u.path, prefix) && StartsWith(u.path, "/")
      && (u.path == prefix + text <==> Plain(text))
      && (Plain(text) ==> u.query == [] && u.fragment == "")
  {
    var s := prefix + text;
    assert s[..1] == "/" && s[..2] != "//" by {
      assert s[0] == '/' && s[1] == prefix[1];
    }
    PlainConcat(prefix, text);
    var u := Of(s);
    assert u.path[..1] == prefix[..1] by {
      assert u.path[..|prefix|] == prefix;
    }
  }

  /** Under the same conditions, the path is the fixed prefix followed by
      the interpolated text up to its first '?' or '#'. */
  lemma RootedTargetPath(prefix: string, text: string)
    requires |prefix| >= 2 && prefix[0] == '/' && prefix[1] != '/' && Plain(prefix)
    ensures Of(prefix + text).path == prefix + text[..IndexOfAny(text, {'?', '#'})]
  {
    var s := prefix + text;
    assert s[..1] == "/" && s[..2] != "//" by {
      assert s[0] == '/' && s[1] == prefix[1];
    }
    PathOfTarget(prefix, text, Of(s).path);
  }

  /** A prefix of `prefix + text` that has no '?' or '#' and ends at one
      (or at the end) is `prefix` followed by `text` up to its first '?'
      or '#', when `prefix` has neither. */
  lemma PathOfTarget(prefix: string, text: string, p: string)
    requires Plain(prefix) && Plain(p) && StartsWith(prefix + text, p)
    requires |p| < |prefix + text| ==> (prefix + text)[|p|] == '?' || (prefix + text)[|p|] == '#'
    ensures p == prefix + text[..IndexOfAny(text, {'?', '#'})]
  {
    var s := prefix + text;
    var n := |p| - |prefix|;
    assert p == s[..|p|];
    forall j | 0 <= j < n
      ensures text[j] !in {'?', '#'}
    {
      assert text[j] == p[|prefix| + j];
    }
    if n < |text| {
      assert text[n] == s[|p|];
    }
    FirstIndexOfAny(text, {'?', '#'}, n);
    assert p == prefix + text[..n];
  }

  /** `IndexOfAny` is the only index before which no character is in `cs`
      and at which one is (or the string ends). */
  lemma FirstIndexOfAny(s: string, cs: set<char>, n: nat)
    requires n <= |s|
    requires forall j :: 0 <= j < n ==> s[j] !in cs
    requires n < |s| ==> s[n] in cs
    ensures IndexOfAny(s, cs) == n
  {
  }

  /** `fromResponse(response)`: the response body, unchanged, wrapped in the
      action's result type. The status is not looked at. */
  function FromResponse(a: GitHubAction, resp: Response): (v: Answer)
    ensures Fits(a, v)
    ensures Json(v) == resp.body
  {
    match a
    case GetUser(_) => User(UserDetails(resp.body))
    case GetRepoLatestCommit(_, _) => LatestCommit(Commit(resp.body))
  }

  /** Decoding depends on the body alone: two responses decode alike exactly
      when their bodies agree, whatever their statuses. */
  lemma FromResponseReadsOnlyBody(a: GitHubAction, r1: Response, r2: Response)
    ensures FromResponse(a, r1) == FromResponse(a, r2) <==> r1.body == r2.body
  {
  }
}

=== FILE: api.dfy ===
/** The dispatcher: `GitHubApi`, whose one operation `invoke` takes an
    action and returns its decoded result, the `Http` adapter that drives an
    action through a transport, and the extension helpers built on `invoke`. */
module GitHubApi {
  import opened Kotlin
  import opened Uris
  import opened Http4k
  import Actions
  import Before

  /** A `GitHubApi`: `invoke` as a function from action to what it returns
      or raises. */
  type Dispatcher = Actions.GitHubAction -> Outcome<Actions.Answer>

  /** What `api` returns for `a` has `a`'s result type. */
  predicate Answers(api: Dispatcher, a: Actions.GitHubAction) {
    api(a).Returned? ==> Actions.Fits(a, api(a).value)
  }

  /** Every answer has its action's result type, as `invoke`'s signature
      `<R> (GitHubApiAction<R>) -> R` demands. */
  ghost predicate WellTyped(api: Dispatcher) {
    forall a :: Answers(api, a)
  }

  /** `Uri.of("https://api.github.com")` */
  const BaseUri: Uri := Of(Actions.ApiBase)

  /** The base address parses to scheme "https", authority
      "api.github.com", and an empty path, query and fragment. */
  lemma BaseUriParts()
    ensures BaseUri == Uri("https", "api.github.com", "", [], "")
  {
    BaseScheme();
    BaseAuthority();
    assert SplitPath("") == ("", "");
  }

  lemma BaseScheme()
    ensures SplitScheme(Actions.ApiBase) == ("https", "//api.github.com")
  {
    var s := Actions.ApiBase;
    assert IndexOfAny(s, {':', '/', '?', '#'}) == 5 by {
      assert s[5] == ':';
      assert forall j :: 0 <= j < 5 ==> s[j] !in {':', '/', '?', '#'};
    }
    assert s[..5] == "https";
    assert s[6..] == "//api.github.com";
  }

  lemma BaseAuthority()
    ensures SplitAuthority("//api.github.com") == ("api.github.com", "")
  {
    var s := "//api.github.com";
    assert IndexOfAny(s[2..], {'/', '?', '#'}) == 14 by {
      assert s[2..] == "api.github.com";
      assert forall j :: 0 <= j < 14 ==> s[2..][j] !in {'/', '?', '#'};
    }
    assert s[..2] == "//";
    assert s[2..16] == "api.github.com";
    assert s[16..] == "";
  }

  /** The filters the adapter puts in front of the client: afterwards the
      request is addressed to https://api.github.com, names that host in its
      `Host` header, accepts GitHub's v3 JSON, and keeps its method, body,
      query and (rooted) path. */
  function Decorate(req: Request): (d: Request)
    ensures d.verb == req.verb && d.body == req.body
    ensures d.uri.scheme == "https" && d.uri.authority == "api.github.com" && d.uri.fragment == ""
    ensures d.uri.query == req.uri.query
    ensures StartsWith(req.uri.path, "/") ==> d.uri.path == req.uri.path
    ensures Header("Host", "api.github.com") in d.headers
    ensures Header("Accept", Actions.V3Json) in d.headers
  {
    BaseUriParts();
    SetHeader("Accept", Actions.V3Json, SetBaseUriFrom(BaseUri, req))
  }

  /** `GitHubApi.Http(client)`: `invoke(a)` hands the client the action's
      request behind the filters and decodes the reply with the action's own
      `fromResponse`; an exception from the client propagates. Every answer
      has its action's result type. */
  function Http(client: HttpHandler): (api: Dispatcher)
    ensures forall a :: api(a) == client(Decorate(Actions.ToRequest(a))).Map(resp => Actions.FromResponse(a, resp))
    ensures WellTyped(api)
  {
    a => client(Decorate(Actions.ToRequest(a))).Map(resp => Actions.FromResponse(a, resp))
  }

  /** A transport whose every use is logged: `sent` lists the requests it
      has been handed, in order. */
  class Transport {
    const handler: HttpHandler
    var sent: seq<Request>

    constructor (handler: HttpHandler)
      ensures this.handler == handler && sent == []
    {
      this.handler := handler;
      sent := [];
    }

    /** One use of the transport: the request is logged and answered. */
    method Send(req: Request) returns (r: Outcome<Response>)
      modifies this
      ensures sent == old(sent) + [req]
      ensures r == handler(req)
    {
      sent := sent + [req];
      r := handler(req);
    }
  }

  /** `Http(client).invoke(action)` as a sequence of steps: the transport
      is used exactly once, with the action's request behind the filters,
      and the result is `Http`'s. */
  method Invoke(t: Transport, a: Actions.GitHubAction) returns (r: Outcome<Actions.Answer>)
    modifies t
    ensures t.sent == old(t.sent) + [Decorate(Actions.ToRequest(a))]
    ensures r == Http(t.handler)(a)
  {
    var resp := t.Send(Decorate(Actions.ToRequest(a)));
    r := resp.Map(resp => Actions.FromResponse(a, resp));
  }

  /** One `invoke` through a fresh logged transport over `client`: the
      client saw exactly one request, the decorated `a.toRequest()`, and the
      caller gets the client's response decoded by `a`, or its exception. */
  method InvokeOnce(client: HttpHandler, a: Actions.GitHubAction)
    returns (sent: seq<Request>, r: Outcome<Actions.Answer>)
    ensures sent == [Decorate(Actions.ToRequest(a))]
    ensures r.Returned? <==> client(sent[0]).Returned?
    ensures r.Returned? ==> r.value == Actions.FromResponse(a, client(sent[0]).value)
    ensures r.Raised? ==> r.exception == client(sent[0]).exception
  {
    var t := new Transport(client);
    r := Invoke(t, a);
    sent := t.sent;
  }

  /** The request the client sees is the action's own request, moved onto
      GitHub's host: method, path and query are the action's, and its only
      headers are the `Host` and `Accept` headers the filters set. */
  lemma DecorateKeepsAction(a: Actions.GitHubAction)
    ensures var req := Actions.ToRequest(a);
      var sent := Decorate(req);
      && sent.verb == req.verb && sent.uri.path == req.uri.path && sent.uri.query == req.uri.query
      && sent.uri.scheme == "https" && sent.uri.authority == "api.github.com"
      && sent.headers == [Header("Host", "api.github.com"), Header("Accept", Actions.V3Json)]
  {
    DecorateHeaders(Actions.ToRequest(a));
  }

  /** A request without headers leaves the filters with exactly the two
      they set, `Host` first. */
  lemma DecorateHeaders(req: Request)
    requires req.headers == []
    ensures Decorate(req).headers == [Header("Host", "api.github.com"), Header("Accept", Actions.V3Json)]
  {
    BaseUriParts();
    var based := SetBaseUriFrom(BaseUri, req);
    assert based.headers == [Header("Host", "api.github.com")];
  }

  /** Against a client that gives the same response to every request, the
      adapter returns exactly that response decoded by the action: it adds
      nothing to decoding and takes nothing away. */
  lemma FixedResponse(resp: Response, a: Actions.GitHubAction)
    ensures Http(_ => Returned(resp))(a) == Returned(Actions.FromResponse(a, resp))
  {
  }

  /** An exception from the client reaches the caller unchanged. */
  lemma ClientFailurePropagates(e: Exception, a: Actions.GitHubAction)
    ensures Http(_ => Raised(e))(a) == Raised(e)
  {
  }

  /** `getUser(username)`: exactly `invoke(GetUser(username))`. */
  function GetUser(api: Dispatcher, username: string): (r: Outcome<Actions.UserDetails>)
    requires Answers(api, Actions.GetUser(username))
    ensures r.Map(d => Actions.User(d)) == api(Actions.GetUser(username))
  {
    match api(Actions.GetUser(username))
    case Returned(v) => Returned(v.details)
    case Raised(e) => Raised(e)
  }

  /** `getLatestRepoCommit(owner, repo)`: exactly
      `invoke(GetRepoLatestCommit(owner, repo))`. */
  function GetLatestRepoCommit(api: Dispatcher, owner: string, repo: string): (r: Outcome<Actions.Commit>)
    requires Answers(api, Actions.GetRepoLatestCommit(owner, repo))
    ensures r.Map(c => Actions.LatestCommit(c)) == api(Actions.GetRepoLatestCommit(owner, repo))
  {
    match api(Actions.GetRepoLatestCommit(owner, repo))
    case Returned(v) => Returned(v.commit)
    case Raised(e) => Raised(e)
  }

  /** A dispatcher that answers every `GetUser` with the same details gives
      those details back from `getUser`, whatever the username. */
  lemma AnsweringEveryGetUser(api: Dispatcher, details: Actions.UserDetails, username: string)
    requires forall name :: api(Actions.GetUser(name)) == Returned(Actions.User(details))
    ensures GetUser(api, username) == Returned(details)
  {
  }

  /** The refactoring changed nothing: for the same client, the old
      `getUser` and `getUser` through the adapter return the same value or
      raise the same exception. */
  lemma GetUserRefinesBefore(client: HttpHandler, username: string)
    ensures Answers(Http(client), Actions.GetUser(username))
    ensures GetUser(Http(client), username) == Before.GetUser(client, username)
  {
  }

  /** Likewise for the latest commit of a repository. */
  lemma GetLatestRepoCommitRefinesBefore(client: HttpHandler, owner: string, repo: string)
    ensures Answers(Http(client), Actions.GetRepoLatestCommit(owner, repo))
    ensures GetLatestRepoCommit(Http(client), owner, repo) == Before.GetRepoLatestCommit(client, owner, repo)
  {
    CommitsSpelling(owner, repo);
  }

  /** The old client's left-to-right interpolation and the action's target
      are the same string. */
  lemma CommitsSpelling(owner: string, repo: string)
    ensures "/repos/" + owner + "/" + repo + "/commits" == Actions.CommitsTarget(owner, repo)
  {
  }
}

=== FILE: before.dfy ===
/** The GitHub client as it was before the actions were introduced: one
    hand-written method per request, each building its request inline and
    sending it through the same stack of client filters. This is the
    reference the adapter is proved against. */
module Before {
  import opened Kotlin
  import opened Uris
  import opened Http4k
  import Actions

  /** The stack built in the constructor: the base URI is laid over the
      request, then the Accept header is set, then the client is called. */
  function Stack(client: HttpHandler): HttpHandler {
    req => client(SetHeader("Accept", "application/vnd.github.v3+json", SetBaseUriFrom(Of("https://api.github.com"), req)))
  }

  /** `getUser(username)`: the reply's body as the user's details. */
  function GetUser(client: HttpHandler, username: string): Outcome<Actions.UserDetails> {
    Stack(client)(NewRequest(GET, "/users/" + username)).Map((resp: Response) => Actions.UserDetails(resp.body))
  }

  /** `getRepoLatestCommit(owner, repo)`: the reply's body as the commit. */
  function GetRepoLatestCommit(client: HttpHandler, owner: string, repo: string): Outcome<Actions.Commit> {
    var req := Query(NewRequest(GET, "/repos/" + owner + "/" + repo + "/commits"), "per_page", "1");
    Stack(client)(req).Map((resp: Response) => Actions.Commit(resp.body))
  }
}

=== FILE: http.dfy ===
/** The slice of http4k's message model the client code touches: requests
    built from a method and a target, query parameters, statuses, responses,
    and the two client filters of the GitHub stack. A transport (an http4k
    `HttpHandler`) is a function from request to response that may raise. */
module Http4k {
  import opened Kotlin
  import opened Uris

  datatype Method = GET | POST

  datatype Header = Header(name: string, value: string)

  /** A request; `verb` is http4k's `method`. */
  datatype Request = Request(verb: Method, uri: Uri, headers: seq<Header>, body: string)

  /** A status line: its numeric code and its reason phrase. */
  datatype Status = Status(code: int, description: string)

  datatype Response = Response(status: Status, body: string)

  /** An http4k `HttpHandler`, such as the OkHttp client: it answers a
      request with a response, or raises. */
  type HttpHandler = Request -> Outcome<Response>

  /** `Request(method, target)`: the target parsed by `Uri.of`, no headers,
      an empty body. A rooted, plain target (no '?' or '#', not "//") is
      taken whole as the path, with no scheme, authority, query or fragment. */
  function NewRequest(verb: Method, target: string): (r: Request)
    ensures r.verb == verb && r.headers == [] && r.body == ""
    ensures StartsWith(target, "/") && !StartsWith(target, "//") && Plain(target) ==>
              r.uri == Uri("", "", target, [], "")
  {
    Request(verb, Of(target), [], "")
  }

  /** `Request.query(name, value)`: one more query parameter, after those
      already there; the rest of the request is untouched. */
  function Query(req: Request, name: string, value: string): (r: Request)
    ensures |r.uri.query| == |req.uri.query| + 1
    ensures r.uri.query[..|req.uri.query|] == req.uri.query
    ensures r.uri.query[|req.uri.query|] == Param(name, Some(value))
    ensures r.(uri := req.uri) == req && r.uri.(query := req.uri.query) == req.uri
  {
    req.(uri := WithQuery(req.uri, name, value))
  }

  /** `Status.successful`: the 2xx codes, those whose hundreds digit is 2. */
  predicate Successful(s: Status)
    ensures Successful(s) <==> s.code / 100 == 2
  {
    200 <= s.code <= 299
  }

  /** `Status.toString()`: the code, a space, the reason phrase. */
  function StatusText(s: Status): (t: string)
    ensures |t| == |IntToString(s.code)| + 1 + |s.description|
    ensures t[..|IntToString(s.code)|] == IntToString(s.code)
    ensures t[|IntToString(s.code)|] == ' '
    ensures t[|IntToString(s.code)| + 1..] == s.description
  {
    IntToString(s.code) + " " + s.description
  }

  /** Two statuses with the same text are the same status: the text names
      the code and the reason phrase unambiguously. */
  lemma StatusTextInjective(s1: Status, s2: Status)
    ensures StatusText(s1) == StatusText(s2) <==> s1 == s2
  {
    if StatusText(s1) == StatusText(s2) {
      var c1, c2 := IntToString(s1.code), IntToString(s2.code);
      var t := StatusText(s1);
      if |c1| != |c2| {
        assert false;
      }
      assert c1 == t[..|c1|] == c2;
      IntToStringInjective(s1.code, s2.code);
    }
  }

  /** `SetBaseUriFrom(base)`: http4k's `SetHostFrom(base)` followed by
      laying the request's URI over `base`. The `Host` header is replaced by
      one naming the base's authority; method, body and every other header
      are kept. */
  function SetBaseUriFrom(base: Uri, req: Request): (r: Request)
    ensures r.verb == req.verb && r.body == req.body
    ensures r.uri == Extend(base, req.uri)
    ensures Header("Host", base.authority) in r.headers
    ensures forall h :: h in r.headers && h.name == "Host" ==> h.value == base.authority
    ensures forall h :: h in req.headers && h.name != "Host" ==> h in r.headers
    ensures forall h :: h in r.headers ==> h in req.headers || h == Header("Host", base.authority)
    ensures req.headers == [] ==> r.headers == [Header("Host", base.authority)]
  {
    req.(uri := Extend(base, req.uri), headers := ReplaceHeader(req.headers, "Host", base.authority))
  }

  /** `SetHeader(name, value)`: afterwards the request carries the header
      `name: value` after all the headers it had; method, URI and body are
      untouched. */
  function SetHeader(name: string, value: string, req: Request): (r: Request)
    ensures |r.headers| == |req.headers| + 1
    ensures r.headers[..|req.headers|] == req.headers && r.headers[|req.headers|] == Header(name, value)
    ensures r.verb == req.verb && r.uri == req.uri && r.body == req.body
  {
    req.(headers := req.headers + [Header(name, value)])
  }

  /** `replaceHeader(name, value)`: every header called `name` removed, the
      others kept in order, and `name: value` added last. */
  function ReplaceHeader(hs: seq<Header>, name: string, value: string): (r: seq<Header>)
    ensures |r| >= 1 && r[|r| - 1] == Header(name, value)
    ensures forall h :: h in r && h.name == name ==> h.value == value
    ensures forall h :: h in hs && h.name != name ==> h in r
    ensures forall h :: h in r ==> h in hs || h == Header(name, value)
  {
    RemoveNamed(hs, name) + [Header(name, value)]
  }

  /** The headers whose name is not `name`, in their original order. */
  function RemoveNamed(hs: seq<Header>, name: string): (r: seq<Header>)
    ensures forall h :: h in r <==> h in hs && h.name != name
  {
    if |hs| == 0 then []
    else if hs[0].name == name then RemoveNamed(hs[1..], name)
    else [hs[0]] + RemoveNamed(hs[1..], name)
  }
}

=== FILE: kotlin.dfy ===
/** The parts of the Kotlin/JVM runtime that the client code relies on:
    nullable values, thrown exceptions, and the handful of `String` and
    `Int` operations used by http4k's request building. */
module Kotlin {

  /** A nullable value, `T?`. */
  datatype Option<+T> = None | Some(value: T)

  /** The exceptions the model tells apart: the `RuntimeException` the
      result4k flavour builds itself, and whatever a transport raises. */
  datatype Exception =
    | RuntimeException(message: string)
    | IOException(message: string)

  /** The outcome of a Kotlin call that may throw: it returns a value or it
      raises an exception that propagates to the caller. */
  datatype Outcome<+T> = Returned(value: T) | Raised(exception: Exception) {

    /** The returned value transformed by `f`; a raised exception passes through. */
    function Map<U>(f: T -> U): (r: Outcome<U>)
      ensures r.Returned? <==> Returned?
      ensures r.Returned? ==> r.value == f(value)
      ensures r.Raised? ==> r.exception == exception
    {
      match this
      case Returned(v) => Returned(f(v))
      case Raised(e) => Raised(e)
    }
  }

  /** Index of the first character of `s` that belongs to `cs`, or `|s|` when
      there is none. */
  function IndexOfAny(s: string, cs: set<char>): (i: nat)
    ensures i <= |s|
    ensures forall j :: 0 <= j < i ==> s[j] !in cs
    ensures i < |s| ==> s[i] in cs
  {
    if |s| == 0 then 0
    else if s[0] in cs then 0
    else 1 + IndexOfAny(s[1..], cs)
  }

  /** `s.startsWith(prefix)` */
  predicate StartsWith(s: string, prefix: string) {
    |prefix| <= |s| && s[..|prefix|] == prefix
  }

  /** `s.removePrefix(prefix)` */
  function RemovePrefix(s: string, prefix: string): (r: string)
    ensures StartsWith(s, prefix) ==> prefix + r == s
    ensures !StartsWith(s, prefix) ==> r == s
  {
    if StartsWith(s, prefix) then s[|prefix|..] else s
  }

  /** `s.removeSuffix(suffix)` */
  function RemoveSuffix(s: string, suffix: string): (r: string)
    ensures |suffix| <= |s| && s[|s| - |suffix|..] == suffix ==> r + suffix == s
    ensures !(|suffix| <= |s| && s[|s| - |suffix|..] == suffix) ==> r == s
  {
    if |suffix| <= |s| && s[|s| - |suffix|..] == suffix then s[..|s| - |suffix|] else s
  }

  /** `Char.isWhitespace()`: Java's whitespace characters together with the
      Unicode space separators (Zs, Zl, Zp). */
  predicate IsWhitespace(c: char) {
    || ('\U{9}' <= c <= '\U{D}')
    || ('\U{1C}' <= c <= '\U{20}')
    || c == '\U{A0}' || c == '\U{1680}'
    || ('\U{2000}' <= c <= '\U{200A}')
    || c == '\U{2028}' || c == '\U{2029}' || c == '\U{202F}' || c == '\U{205F}' || c == '\U{3000}'
  }

  /** `s.isBlank()` */
  predicate IsBlank(s: string) {
    forall k :: 0 <= k < |s| ==> IsWhitespace(s[k])
  }

  /** `parts.joinToString(sep)`, the inverse of `Split`. */
  ghost function JoinWith(parts: seq<string>, sep: char): string {
    if |parts| == 0 then ""
    else if |parts| == 1 then parts[0]
    else parts[0] + [sep] + JoinWith(parts[1..], sep)
  }

  /** `s.split(sep)` for a one-character separator: the maximal pieces
      between separators, empty pieces included, so never an empty list. */
  function Split(s: string, sep: char): (parts: seq<string>)
    ensures |parts| >= 1
    ensures forall k :: 0 <= k < |parts| ==> sep !in parts[k]
    ensures JoinWith(parts, sep) == s
    decreases |s|
  {
    var i := IndexOfAny(s, {sep});
    if i == |s| then
      [s]
    else
      var rest := Split(s[i + 1..], sep);
      assert s == s[..i] + [sep] + s[i + 1..];
      [s[..i]] + rest
  }

  predicate IsDigit(c: char) {
    '0' <= c <= '9'
  }

  function DigitChar(d: nat): (c: char)
    requires d < 10
    ensures IsDigit(c) && c as int - '0' as int == d
  {
    "0123456789"[d]
  }

  /** Decimal digits of `n`, most significant first, without leading zeros. */
  function NatToDecimal(n: nat): (s: string)
    ensures |s| >= 1
    ensures forall k :: 0 <= k < |s| ==> IsDigit(s[k])
    ensures |s| > 1 ==> s[0] != '0'
  {
    if n < 10 then [DigitChar(n)] else NatToDecimal(n / 10) + [DigitChar(n % 10)]
  }

  /** `Int.toString()`: decimal, with a leading '-' for negative values. */
  function IntToString(i: int): (s: string)
    ensures |s| >= 1
    ensures ' ' !in s
  {
    if i < 0 then "-" + NatToDecimal(-i) else NatToDecimal(i)
  }

  /** The value of a string of decimal digits. */
  ghost function DecimalValue(s: string): int
    requires forall k :: 0 <= k < |s| ==> IsDigit(s[k])
  {
    if |s| == 0 then 0 else 10 * DecimalValue(s[..|s| - 1]) + (s[|s| - 1] as int - '0' as int)
  }

  /** The value of an optionally '-'-signed numeral: the reading of `IntToString`. */
  ghost function NumeralValue(s: string): int
    requires |s| >= 1
    requires forall k :: 1 <= k < |s| ==> IsDigit(s[k])
    requires s[0] == '-' || IsDigit(s[0])
  {
    if s[0] == '-' then -DecimalValue(s[1..]) else DecimalValue(s)
  }

  lemma {:induction false} NatToDecimalRoundTrip(n: nat)
    ensures DecimalValue(NatToDecimal(n)) == n
  {
    if n >= 10 {
      var s := NatToDecimal(n);
      NatToDecimalRoundTrip(n / 10);
      assert s[..|s| - 1] == NatToDecimal(n / 10);
    }
  }

  /** Reading back what `IntToString` wrote gives the number: the rendering
      loses nothing. */
  lemma IntToStringRoundTrip(i: int)
    ensures NumeralValue(IntToString(i)) == i
  {
    if i < 0 {
      NatToDecimalRoundTrip(-i);
      assert IntToString(i)[1..] == NatToDecimal(-i);
    } else {
      NatToDecimalRoundTrip(i);
    }
  }

  /** Distinct integers render as distinct strings. */
  lemma IntToStringInjective(i: int, j: int)
    ensures IntToString(i) == IntToString(j) <==> i == j
  {
    if IntToString(i) == IntToString(j) {
      IntToStringRoundTrip(i);
      IntToStringRoundTrip(j);
    }
  }
}

=== FILE: recording.dfy ===
/** `RecordingGitHubApi`: a `GitHubApi` that wraps another, appends every
    action it is given to its `recorded` list, and then hands the action on. */
module Recording {
  import opened Kotlin
  import Actions
  import opened GitHubApi

  class RecordingGitHubApi {
    const delegate: Dispatcher
    var recorded: seq<Actions.GitHubAction>

    constructor (delegate: Dispatcher)
      ensures this.delegate == delegate && recorded == []
    {
      this.delegate := delegate;
      recorded := [];
    }

    /** The action is logged first, so it stays logged even when the
        delegate raises; then the delegate's own result for the unchanged
        action is returned as it is. */
    method Invoke(action: Actions.GitHubAction) returns (r: Outcome<Actions.Answer>)
      modifies this
      ensures recorded == old(recorded) + [action]
      ensures r == delegate(action)
    {
      recorded := recorded + [action];
      r := delegate(action);
    }

    /** `getUser(username)` on the recorder: the `GetUser` action is logged,
        and the caller gets the delegate's user details or its exception. */
    method GetUser(username: string) returns (r: Outcome<Actions.UserDetails>)
      requires Answers(delegate, Actions.GetUser(username))
      modifies this
      ensures recorded == old(recorded) + [Actions.GetUser(username)]
      ensures r.Map(d => Actions.User(d)) == delegate(Actions.GetUser(username))
    {
      var v := Invoke(Actions.GetUser(username));
      r := match v
        case Returned(a) => Returned(a.details)
        case Raised(e) => Raised(e);
    }

    /** `getLatestRepoCommit(owner, repo)` on the recorder: likewise for the
        `GetRepoLatestCommit` action. */
    method GetLatestRepoCommit(owner: string, repo: string) returns (r: Outcome<Actions.Commit>)
      requires Answers(delegate, Actions.GetRepoLatestCommit(owner, repo))
      modifies this
      ensures recorded == old(recorded) + [Actions.GetRepoLatestCommit(owner, repo)]
      ensures r.Map(c => Actions.LatestCommit(c)) == delegate(Actions.GetRepoLatestCommit(owner, repo))
    {
      var v := Invoke(Actions.GetRepoLatestCommit(owner, repo));
      r := match v
        case Returned(a) => Returned(a.commit)
        case Raised(e) => Raised(e);
    }
  }

  /** A fresh recorder wrapping `delegate`, given `actions` one after the
      other by a caller that handles each call's exception before the next:
      afterwards the log is exactly `actions`, in call order with repeats
      kept, and each call returned what `delegate` alone returns for it. */
  method Session(delegate: Dispatcher, actions: seq<Actions.GitHubAction>)
    returns (recorded: seq<Actions.GitHubAction>, results: seq<Outcome<Actions.Answer>>)
    ensures recorded == actions
    ensures |results| == |actions|
    ensures forall k :: 0 <= k < |actions| ==> results[k] == delegate(actions[k])
  {
    var api := new RecordingGitHubApi(delegate);
    results := [];
    for i := 0 to |actions|
      invariant api.delegate == delegate
      invariant api.recorded == actions[..i]
      invariant |results| == i
      invariant forall k :: 0 <= k < i ==> results[k] == delegate(actions[k])
    {
      var r := api.Invoke(actions[i]);
      results := results + [r];
    }
    recorded := api.recorded;
  }
}

=== FILE: result4k.dfy ===
/** The result4k flavour of `GetUser`: decoding returns an explicit
    `Success` or `Failure` instead of wrapping whatever body came back. */
module Result4k {
  import opened Kotlin
  import opened Http4k
  import Actions

  /** result4k's `Result<T, E>`: exactly one of a success value or a failure reason. */
  datatype Result<+T, +E> = Success(value: T) | Failure(reason: E)

  /** `result4k.GetUser(username)` */
  datatype GetUser = GetUser(username: string)

  /** The prefix of the failure message. */
  const ApiReturned := "API returned: "

  /** `toRequest()`: the same request as the plain `GetUser` makes. */
  function ToRequest(a: GetUser): (r: Request)
    ensures r == Actions.ToRequest(Actions.GetUser(a.username))
  {
    NewRequest(GET, "/users/" + a.username)
  }

  /** `fromResponse(response)`: a 2xx response succeeds with its body as the
      user's details; any other fails with a `RuntimeException` naming the
      status. One of the two always happens. */
  function FromResponse(a: GetUser, resp: Response): (r: Result<Actions.UserDetails, Exception>)
    ensures r.Success? <==> Successful(resp.status)
    ensures r.Success? ==> r.value.userJson == resp.body
    ensures r.Failure? ==> r.reason == RuntimeException(ApiReturned + StatusText(resp.status))
  {
    if Successful(resp.status) then Success(Actions.UserDetails(resp.body))
    else Failure(RuntimeException(ApiReturned + StatusText(resp.status)))
  }

  /** On a 2xx response both flavours decode the same details; on any other
      the plain flavour still hands back the body as details, where this
      flavour fails. */
  lemma AgreesWithPlainGetUser(username: string, resp: Response)
    ensures var plain := Actions.FromResponse(Actions.GetUser(username), resp);
      && plain.User?
      && (Successful(resp.status) <==> FromResponse(GetUser(username), resp) == Success(plain.details))
  {
  }

  /** A failure tells which status caused it: two failures carry the same
      exception only when the two statuses are the same. */
  lemma FailureNamesStatus(a: GetUser, r1: Response, r2: Response)
    requires !Successful(r1.status) && !Successful(r2.status)
    ensures FromResponse(a, r1) == FromResponse(a, r2) <==> r1.status == r2.status
  {
    if FromResponse(a, r1) == FromResponse(a, r2) {
      var m1, m2 := ApiReturned + StatusText(r1.status), ApiReturned + StatusText(r2.status);
      assert m1 == m2;
      assert StatusText(r1.status) == m1[|ApiReturned|..] == m2[|ApiReturned|..] == StatusText(r2.status);
      StatusTextInjective(r1.status, r2.status);
    }
  }
}

=== FILE: uris.dfy ===
/** http4k's `Uri`: how a request target string is parsed (`Uri.of`), how a
    query parameter is added (`Uri.query`), and how a base URI is laid over a
    request's URI (`Uri.extend`, used by the `SetBaseUriFrom` client filter). */
module Uris {
  import opened Kotlin

  /** One query parameter; a parameter written without '=' has a null value. */
  datatype Param = Param(name: string, value: Option<string>)

  /** The parts of a URI. http4k splits the authority further into user
      info, host and port; the model keeps it whole. */
  datatype Uri = Uri(scheme: string, authority: string, path: string, query: seq<Param>, fragment: string)

  /** No character that would end the path of a request target. */
  predicate Plain(s: string) {
    '?' !in s && '#' !in s
  }

  /** The text a parameter was read from. */
  ghost function ParamText(p: Param): string {
    match p.value
    case None => p.name
    case Some(v) => p.name + "=" + v
  }

  /** `String.toParameter()`: the name runs up to the first '='; the value,
      if any, is everything after it. */
  function ToParameter(s: string): (p: Param)
    ensures '=' !in p.name
    ensures p.value.None? <==> '=' !in s
    ensures ParamText(p) == s
  {
    var i := IndexOfAny(s, {'='});
    if i == |s| then Param(s, None)
    else
      assert s == s[..i] + "=" + s[i + 1..];
      Param(s[..i], Some(s[i + 1..]))
  }

  /** `String.toParameters()`: an empty query has no parameters; any other
      has one per '&'-separated piece, and writing them back out joined by
      '&' gives the query again. */
  function ToParameters(q: string): (ps: seq<Param>)
    ensures q == "" <==> ps == []
    ensures q != "" ==> JoinWith(seq(|ps|, k requires 0 <= k < |ps| => ParamText(ps[k])), '&') == q
  {
    if q == "" then []
    else
      var parts := Split(q, '&');
      var ps := seq(|parts|, k requires 0 <= k < |parts| => ToParameter(parts[k]));
      assert seq(|ps|, k requires 0 <= k < |ps| => ParamText(ps[k])) == parts;
      ps
  }

  /** The scheme of a target and what follows its ':'; a target whose first
      delimiter is not a ':' after at least one character has no scheme. */
  function SplitScheme(s: string): (r: (string, string))
    ensures StartsWith(s, "/") ==> r == ("", s)
  {
    var i := IndexOfAny(s, {':', '/', '?', '#'});
    if 0 < i < |s| && s[i] == ':' then (s[..i], s[i + 1..]) else ("", s)
  }

  /** The authority after a leading "//" and what follows it; without "//"
      there is no authority. */
  function SplitAuthority(s: string): (r: (string, string))
    ensures !StartsWith(s, "//") ==> r == ("", s)
  {
    if StartsWith(s, "//") then
      var j := IndexOfAny(s[2..], {'/', '?', '#'});
      (s[2..2 + j], s[2 + j..])
    else ("", s)
  }

  /** The path, up to the first '?' or '#', and what follows it. */
  function SplitPath(s: string): (r: (string, string))
    ensures r.0 + r.1 == s
    ensures '?' !in r.0 && '#' !in r.0
    ensures r.1 == "" <==> Plain(s)
  {
    var k := IndexOfAny(s, {'?', '#'});
    assert '?' !in s[..k] && '#' !in s[..k] by {
      forall n | 0 <= n < k ensures s[..k][n] != '?' && s[..k][n] != '#' {
        assert s[..k][n] == s[n];
      }
    }
    assert s[..k] + s[k..] == s;
    (s[..k], s[k..])
  }

  /** The raw query after a leading '?', up to the first '#', and the rest. */
  function SplitQuery(s: string): (r: (string, string))
    ensures s == "" ==> r == ("", "")
  {
    if |s| > 0 && s[0] == '?' then
      var m := 1 + IndexOfAny(s[1..], {'#'});
      (s[1..m], s[m..])
    else ("", s)
  }

  /** `Uri.of(target)`: the split of appendix B of RFC 3986,
      `^(?:([^:/?#]+):)?(?://([^/?#]*))?([^?#]*)(?:\?([^#]*))?(?:#(.*))?`.
      A rooted target that is not network-relative has neither scheme nor
      authority, and its path is the target up to the first '?' or '#': a
      prefix with neither character, followed in the target by one of them
      or by nothing. */
  function Of(s: string): (u: Uri)
    ensures '?' !in u.path && '#' !in u.path
    ensures StartsWith(s, "/") && !StartsWith(s, "//") ==>
              && u.scheme == "" && u.authority == ""
              && StartsWith(s, u.path)
              && (u.path == s <==> Plain(s))
              && (Plain(s) ==> u.query == [] && u.fragment == "")
    ensures StartsWith(s, "/") && !StartsWith(s, "//") && |u.path| < |s| ==> s[|u.path|] == '?' || s[|u.path|] == '#'
  {
    var (scheme, afterScheme) := SplitScheme(s);
    var (authority, hierarchy) := SplitAuthority(afterScheme);
    var (path, afterPath) := SplitPath(hierarchy);
    var (query, afterQuery) := SplitQuery(afterPath);
    var fragment := if |afterQuery| > 0 then afterQuery[1..] else "";
    Uri(scheme, authority, path, ToParameters(query), fragment)
  }

  /** Where the rest of a rooted target goes when its path ends at a '#':
      there is no query, and the fragment is everything after that '#'. */
  lemma OfFragment(s: string)
    requires StartsWith(s, "/") && !StartsWith(s, "//")
    requires |Of(s).path| < |s| && s[|Of(s).path|] == '#'
    ensures Of(s).query == [] && Of(s).fragment == s[|Of(s).path| + 1..]
  {
  }

  /** When the path of a rooted target ends at a '?', the query is parsed
      from the text up to the next '#', and the fragment is what follows
      that '#', if any. */
  lemma OfQuery(s: string)
    requires StartsWith(s, "/") && !StartsWith(s, "//")
    requires |Of(s).path| < |s| && s[|Of(s).path|] == '?'
    ensures var rest := s[|Of(s).path| + 1..];
      var k := IndexOfAny(rest, {'#'});
      && Of(s).query == ToParameters(rest[..k])
      && Of(s).fragment == (if k < |rest| then rest[k + 1..] else "")
  {
    var (path, afterPath) := SplitPath(s);
    RootedParts(s);
    assert afterPath == s[|path|..] && Of(s).path == path;
    assert |afterPath| > 0 && afterPath[0] == '?';
    var rest := afterPath[1..];
    var k := IndexOfAny(rest, {'#'});
    assert afterPath[1..1 + k] == rest[..k] && afterPath[1 + k..] == rest[k..];
    assert SplitQuery(afterPath) == (rest[..k], rest[k..]);
  }

  /** A rooted target that is not network-relative is split by the path
      and query steps alone. */
  lemma RootedParts(s: string)
    requires StartsWith(s, "/") && !StartsWith(s, "//")
    ensures var (path, afterPath) := SplitPath(s);
      var (query, afterQuery) := SplitQuery(afterPath);
      Of(s) == Uri("", "", path, ToParameters(query), if |afterQuery| > 0 then afterQuery[1..] else "")
  {
  }

  /** `Uri.query(name, value)`: the existing parameters followed by the new one. */
  function WithQuery(u: Uri, name: string, value: string): (r: Uri)
    ensures |r.query| == |u.query| + 1
    ensures r.query[..|u.query|] == u.query
    ensures r.query[|u.query|] == Param(name, Some(value))
    ensures r.(query := u.query) == u
  {
    u.(query := u.query + [Param(name, Some(value))])
  }

  /** `Uri.appendToPath(p)`: a blank `p` leaves the base alone; otherwise the
      two paths are joined with exactly one '/' between them. */
  function AppendToPath(base: Uri, p: string): (r: Uri)
    ensures r.(path := base.path) == base
    ensures IsBlank(p) ==> r == base
    ensures base.path == "" && StartsWith(p, "/") ==> r.path == p
  {
    assert StartsWith(p, "/") ==> p[0] == '/' && !IsBlank(p);
    if IsBlank(p) then base
    else base.(path := RemoveSuffix(base.path, "/") + "/" + RemovePrefix(p, "/"))
  }

  /** `base.extend(u)`: scheme, authority and fragment of `base`, the paths
      appended, the base's query parameters followed by those of `u`. */
  function Extend(base: Uri, u: Uri): (r: Uri)
    ensures r.scheme == base.scheme && r.authority == base.authority && r.fragment == base.fragment
    ensures r.query == base.query + u.query
    ensures base.path == "" && StartsWith(u.path, "/") ==> r.path == u.path
  {
    AppendToPath(base, u.path).(query := base.query + u.query)
  }
}
